=== FILE: README.md ===
# Order lifecycle of the order API, modelled in Dafny

The API manages users, their orders and the cart items of each order. A
user may hold at most one order with status `Pending`. Checkout moves a
Pending order that has at least one item to `Processed`. Cart items must
have a positive quantity and a positive unit price.

The model keeps the whole database as one immutable `Store` of three finite
maps (users, orders, cart items) keyed by opaque string keys (the text of
the UUID primary keys). Every handler is a pure function from the store and
the request to an outcome and the new store.

- `models.dfy` (module `Models`): the records, the status column and its
  declared choices, the entity `clean` validators, a validated order write,
  cascade deletion, and the store invariants. The invariants are: at most
  one Pending order per user, references resolve, and statuses are declared.
- `serializers.dfy` (module `Serializers`): the request-level quantity and
  price checks and the request-level one-Pending-order check. Lemmas show
  that these agree with the entity-level checks.
- `views.dfy` (module `Views`): the resource-scoped checkout action, the
  standalone checkout endpoint, the cart-item filter, the caller-scoped
  order listing and creation, and the generic create and partial update of
  the order resource.

Modelling choices:

- The status column is a plain string. This lets the model store the
  standalone endpoint's upper-case `PROCESSED`, a value outside the declared
  choices.
- Prices are integer cents.
- The `orderID` body field and the `order_id` query parameter are optional
  strings. They count as given when present and non-empty, which mirrors the
  truthiness tests in the code.
- Reply bodies are reduced to an outcome kind and its HTTP status code.

The code has two checkouts and two validation layers. The model keeps both
and states where they differ. The standalone endpoint looks the order up
through a field the entity does not declare, so the model follows the code
and models the primary-key lookup separately (see Findings).

The generic create and partial-update handlers of the order resource come
from the framework: they run the request-level checks and then write the
record without running the entity check. They are modelled as
`Views.CreateOrder` and `Views.PartialUpdateOrder`.

## Model

| member | source | states |
|---|---|---|
| Models.AtMostOnePendingIffCount | cselectiveAPI-main/mysite/api/models.py:33-37 | No two distinct orders of one user are both Pending exactly when every user has at most one Pending order |
| Models.NewOrder | cselectiveAPI-main/mysite/api/models.py:29 | An order created without a status belongs to its user and is Pending, a declared choice |
| Models.StatusChoicesExactlyThree | cselectiveAPI-main/mysite/api/models.py:21-25 | The status domain is exactly {Pending, Processed, Cancelled} |
| Models.UserClean | cselectiveAPI-main/mysite/api/models.py:12-15 | The user check fails iff the user owns at least one Pending order |
| Models.UserCleanPassAdmitsAnyOrder | cselectiveAPI-main/mysite/api/models.py:12-15 | A user who passes the user check has no Pending order, so any order written for that user passes the order check |
| Models.UserCleanRefusesSinglePending | cselectiveAPI-main/mysite/api/models.py:13-15 | The user check refuses a user holding exactly one Pending order, which the order check itself accepts on re-save |
| Models.OrderClean | cselectiveAPI-main/mysite/api/models.py:33-37 | A write fails iff its status is Pending and some other order (different key) of the same user is Pending; non-Pending writes always pass |
| Models.CartItemClean | cselectiveAPI-main/mysite/api/models.py:49-54 | Accepts iff quantity > 0 and price > 0; a non-positive quantity is reported before the price |
| Models.SaveOrder | cselectiveAPI-main/mysite/api/models.py:33-37 | The write succeeds exactly when the order check passes; a refused write was a Pending write; a write that succeeds stores the record under its key and changes no other record |
| Models.SaveOrderPreservesAtMostOnePending | cselectiveAPI-main/mysite/api/models.py:33-37 | If every user has at most one Pending order before a validated write, the same holds after it |
| Models.ResaveOnlyPendingOrderPasses | cselectiveAPI-main/mysite/api/models.py:36 | Re-saving the user's only Pending order passes: the record is excluded from its own conflict query |
| Models.DeleteUser | cselectiveAPI-main/mysite/api/models.py:28-44 | Deleting a user removes the user, its orders and the items of those orders, and leaves every other record as it was |
| Models.DeleteUserRemovesExactlyItsTree | cselectiveAPI-main/mysite/api/models.py:28-44 | The removed orders are exactly the user's, the removed items exactly those of its orders, and the user is left with no Pending order |
| Models.DeleteUserPreservesInvariants | cselectiveAPI-main/mysite/api/models.py:28 | The user cascade leaves no dangling reference and keeps the one-Pending-order rule |
| Models.DeleteOrder | cselectiveAPI-main/mysite/api/models.py:44 | Deleting an order removes it and exactly its items, nothing else |
| Models.DeleteOrderPreservesInvariants | cselectiveAPI-main/mysite/api/models.py:44 | The order cascade leaves no dangling reference and keeps the one-Pending-order rule |
| Serializers.ValidateQuantity | cselectiveAPI-main/mysite/api/serializers.py:16-20 | Rejects a value <= 0; otherwise returns the value unchanged |
| Serializers.ValidatePrice | cselectiveAPI-main/mysite/api/serializers.py:22-26 | Rejects a value <= 0; otherwise returns the value unchanged |
| Serializers.CartItemFieldErrors | cselectiveAPI-main/mysite/api/serializers.py:16-26 | The validate_* methods collect a quantity error iff quantity <= 0 and a price error iff price <= 0, no other error, and the quantity error first when both occur |
| Serializers.CartItemLayersAgree | cselectiveAPI-main/mysite/api/serializers.py:16-26 | The validate_* methods and the entity check make the same accept/reject decision for every (quantity, price); the first validate_* error is the entity's error |
| Serializers.ValidateOrderData | cselectiveAPI-main/mysite/api/serializers.py:37-43 | Rejects iff the status is explicitly Pending, a user is named, and a Pending order of that user other than the instance exists; otherwise returns the data unchanged |
| Serializers.CreateConflictsWithAnyPending | cselectiveAPI-main/mysite/api/serializers.py:41 | On creation (no instance) any Pending order of the user is a conflict |
| Serializers.ValidateOrderDataSkipsCheck | cselectiveAPI-main/mysite/api/serializers.py:39-43 | With the status absent or not Pending, or no user named, validation passes and returns the data |
| Serializers.UpdateCheckAgreesWithOrderClean | cselectiveAPI-main/mysite/api/serializers.py:37-43 | On update, the request-level and entity-level conflict checks make the same decision |
| Serializers.CreateCheckAgreesWithOrderClean | cselectiveAPI-main/mysite/api/serializers.py:41 | On creation under an unused key, the request-level and entity-level conflict checks make the same decision |
| Views.Checkout | cselectiveAPI-main/mysite/api/views.py:31-45 | Not found iff the key is absent; not Pending iff present and not Pending; no items iff Pending with no item; every failure leaves the store unchanged; success sets only that order to Processed |
| Views.CheckoutReplyCodes | cselectiveAPI-main/mysite/api/views.py:33-45 | 404 iff the order is missing, 200 iff it is Pending with at least one item, 400 otherwise |
| Views.CheckoutAtMostOnce | cselectiveAPI-main/mysite/api/views.py:33-43 | After a successful checkout a second one is refused as not Pending and changes nothing |
| Views.CheckoutNeverAddsPending | cselectiveAPI-main/mysite/api/views.py:41-43 | Checkout never adds a Pending order and never increases any user's Pending count |
| Views.CheckoutPreservesInvariants | cselectiveAPI-main/mysite/api/views.py:41-43 | Checkout keeps the one-Pending-order rule, resolved references and declared statuses |
| Views.CheckoutViewAsWritten | cselectiveAPI-main/mysite/api/views.py:113-121 | A missing id gives 400; every given id ends in the field-lookup error; the store never changes |
| Views.CheckoutViewAsWrittenMissesExistingOrder | cselectiveAPI-main/mysite/api/views.py:118-121 | Even for an existing order the lookup as written answers 500, while a primary-key lookup finds the order |
| Views.StandaloneCheckout | cselectiveAPI-main/mysite/api/views.py:113-127 | Missing id 400, unknown id 404, status exactly PROCESSED 400; any other order is set to PROCESSED with no Pending or item check |
| Views.StandaloneReprocessesCheckedOutOrder | cselectiveAPI-main/mysite/api/views.py:123-127 | An order checked out by the resource-scoped action is processed again, and its new status is outside the declared choices |
| Views.CheckoutsDiverge | cselectiveAPI-main/mysite/api/views.py:111-127 | For every existing order not marked PROCESSED, the standalone endpoint processes it, while the resource-scoped action refuses it exactly when it is not Pending or has no items (a Pending order with no items gets NoCartItems) |
| Views.StandaloneAtMostOnceByItself | cselectiveAPI-main/mysite/api/views.py:123-127 | After the standalone endpoint processes an order, a second request for it is refused |
| Views.StandalonePreservesRule | cselectiveAPI-main/mysite/api/views.py:126-127 | The standalone endpoint keeps the one-Pending-order rule and resolved references |
| Views.StandaloneCheckoutCanonical | cselectiveAPI-main/mysite/api/views.py:123-127 | The standalone endpoint with the declared Processed literal: refuses an order already Processed, never ends in the lookup error, and otherwise sets the order to Processed and changes nothing else |
| Views.StandaloneCanonicalNeverReprocesses | cselectiveAPI-main/mysite/api/views.py:123-127 | With the declared literal, an order processed by either checkout is refused, and declared statuses stay declared |
| Views.CartItemsQuery | cselectiveAPI-main/mysite/api/views.py:54-61 | With order_id given, exactly the items of that order when it is Pending; without it, all items |
| Views.CartItemsQueryAgreesWithCheckout | cselectiveAPI-main/mysite/api/views.py:58-60 | Checkout succeeds iff the filter shows some item of the order; after success the filter shows none |
| Views.ListOrders | cselectiveAPI-main/mysite/api/views.py:73-77 | The listing holds exactly the caller's orders |
| Views.ListOrdersIsOwnedTree | cselectiveAPI-main/mysite/api/views.py:75 | The listing is exactly what deleting the caller would remove, and contains the caller's Pending order |
| Views.OrderFieldErrors | cselectiveAPI-main/mysite/api/serializers.py:28-35 | No field error iff the named user exists and any supplied status is a declared choice |
| Views.CreateOrder | cselectiveAPI-main/mysite/api/views.py:19-24 | Generic create: created iff the named user exists, the status is absent or declared, and not (explicitly Pending while the user has a Pending order); an absent status stores the default; rejection changes nothing |
| Views.OrderListPost | cselectiveAPI-main/mysite/api/views.py:79-89 | Created iff the caller exists, the status is absent or declared, and not (explicitly Pending while the caller has a Pending order); the new order is owned by the caller; rejection changes nothing |
| Views.OrderListPostIgnoresSuppliedUser | cselectiveAPI-main/mysite/api/views.py:81-83 | The user named in the body has no effect: it is overwritten by the caller before validation |
| Views.CreateOrderExplicitStatusPreservesRule | cselectiveAPI-main/mysite/api/serializers.py:39-43 | Creation keeps references and declared statuses, and keeps the one-Pending-order rule when the status is supplied |
| Views.CreateOrderWithoutStatusBreaksRule | cselectiveAPI-main/mysite/api/serializers.py:39-41 | A body naming a user and no status is accepted with 201 although the user already has a Pending order, leaving two |
| Views.CreateOrderChecked | cselectiveAPI-main/mysite/api/serializers.py:39-41 | Generic create with the default status made explicit: created iff the user exists, the status is absent or declared, and not (absent or Pending while the user has a Pending order); the stored order is as requested; rejection changes nothing |
| Views.OrderListPostChecked | cselectiveAPI-main/mysite/api/views.py:79-89 | Caller-scoped create with the default made explicit: created iff the caller exists, the status is absent or declared, and not (absent or Pending while the caller has a Pending order); on success the caller's new order is stored and users and items are unchanged; rejection changes nothing |
| Views.CreateOrderCheckedPreservesRule | cselectiveAPI-main/mysite/api/serializers.py:39-41 | With the default made explicit, every creation keeps all three store invariants, and it equals the as-written handler whenever a status is supplied |
| Views.PartialFieldErrors | cselectiveAPI-main/mysite/api/serializers.py:28-35 | On a partial update, no field error iff a supplied user exists and a supplied status is a declared choice |
| Views.PartialUpdateOrder | cselectiveAPI-main/mysite/api/views.py:19-24 | Generic partial update: 404 iff the order is missing; updated iff the supplied fields are valid and not (Pending and a user both supplied while another Pending order of that user exists); the merged record is written; rejection changes nothing |
| Views.PartialUpdateWithoutUserBreaksRule | cselectiveAPI-main/mysite/api/serializers.py:39-40 | Setting Pending without naming the user on a non-Pending order of a user who has a Pending order is accepted with 200, leaving two |
| Views.PartialUpdateReassignBreaksRule | cselectiveAPI-main/mysite/api/serializers.py:39-40 | Moving a Pending order to another user who already has a Pending order, naming the user but no status, is accepted with 200, leaving that user two |
| Views.PartialUpdateOrderChecked | cselectiveAPI-main/mysite/api/serializers.py:39-41 | Partial update with the object check run on the merged record: updated iff the supplied fields are valid and the order check passes on the merged record |
| Views.PartialUpdateCheckedPreservesRule | cselectiveAPI-main/mysite/api/serializers.py:39-41 | With the merged record checked, every partial update keeps the one-Pending-order rule, and it equals the as-written handler whenever both fields are supplied |
| Views.LifecycleScenario | cselectiveAPI-main/mysite/api/views.py:19-45 | For one user with a Pending order holding one item: checkout gives 200 and Processed, a repeat gives 400 with no change, a new Pending order is then created through the generic create with 201, and a further one is refused with 400 |

## Left out

- URL routing (`urls.py`) is not modelled. `urls.py` includes the router, which registers `orders/`, before the explicit `orders/` path. Resolution takes the first match, so requests to `orders/` reach the generic order viewset (`Views.CreateOrder` for a creation), and the caller-scoped view is never reached as routed.
- Login and token issuance are not modelled: they are calls into the authentication library. The authenticated caller is a user key parameter. In the code, that principal comes from the framework's own user table, not from the `User` entity, and the model treats the two as the same.
- Creation and update timestamps, and UUID generation, are not modelled. A new order's key is a parameter required to be unused.
- Transactions and concurrent requests are not modelled. Each conflict check and the write after it form one atomic step.
- Decimal arithmetic is not modelled: prices are integer cents, and `max_digits` is not enforced.
- Field length limits, email format and email uniqueness are not modelled.
- Reply bodies and message texts are not modelled. Only the outcome kind and the HTTP status code remain.
- The generic list, retrieve, full-update and delete handlers of the viewsets are not modelled as handlers of their own. Their write is `Serializers.ValidateOrderData` followed by a store update that does not run the entity check, as in `Views.CreateOrder` and `Views.PartialUpdateOrder`. A full update is a partial update that supplies the user: the user field is required, but the status has a model default and so may be left out, in which case only the supplied fields are set.
- Views.ListOrders: models the listing with the caller identified with a `User` key. As written, the handler filters the user reference with the framework's own user object, a different model, and the framework refuses that lookup with a server error.
- Views.OrderListPost: models the creation with the caller identified with a `User` key. As written, the handler stores the framework user's id in a reference keyed by UUID, which the request check refuses with 400 (invalid key). Since the route is shadowed as well, the bypass of the one-Pending-order check is shown through `Views.CreateOrder`.
- `Models.UserClean`, `Models.OrderClean` and `Models.CartItemClean` are modelled as validators. No handler in `views.py` calls them, the cart-item viewset included: the serializers' save does not run entity `clean` hooks. `Models.SaveOrder` models a write that does run the order check; no handler in `views.py` performs it. `Serializers.CartItemLayersAgree` therefore compares the request check with an entity check that no handler runs.
- Views.Checkout: the not-found reply comes from the framework's object lookup, which raises its own 404 exception rather than the `DoesNotExist` the handler catches. The status code is 404 either way, and only the body differs.
- Views.CheckoutViewAsWritten: the `orderID` body field is an optional string. JSON numbers or booleans in that field are not modelled.
- Views.CartItemsQuery: an `order_id` that is not a well-formed UUID is not modelled. Request key text (`order_id`, `orderID`, a `user` field) is taken to be the key's own spelling; other spellings of the same UUID (upper case, no hyphens, braces, `urn:uuid:`), which the framework resolves to the same record, are not modelled.
- Serializers.ValidateQuantity: the quantity field's own minimum of zero, which runs before this check, is not modelled separately. Both reject a negative value.
- Serializers.CartItemFieldErrors: models only `validate_quantity` and `validate_price`. The fields' own range checks, which the framework derives from the column types and runs first, are not modelled: the minimum of zero, the integer column's maximum (which depends on the database backend) and the price's `max_digits`. A quantity above that maximum is refused by the request layer as written but accepted here; `Serializers.CartItemLayersAgree` compares only the `validate_*` methods with the entity check.

## Findings

| source | as written | input that shows it | evidently intended | confidence | as-written member | corrected member |
|---|---|---|---|---|---|---|
| cselectiveAPI-main/mysite/api/views.py:118-121 | looks the order up through a field named `orderID`, which the Order entity does not declare; the field-resolution error this raises is not the `DoesNotExist` the handler catches | any non-empty `orderID`, including the key of an existing order | look the order up by primary key; answer 404 for an unknown key | not executed; high (the entity declares no such field) | Views.CheckoutViewAsWritten, Views.CheckoutViewAsWrittenMissesExistingOrder | Views.StandaloneCheckout |
| cselectiveAPI-main/mysite/api/views.py:123-127 | tests for and writes `PROCESSED`, while the declared choice and the other checkout use `Processed` | once line 119 looks the order up by primary key (row above): an order already checked out by the resource-scoped action (status `Processed`); as written, line 119 answers 500 first and line 123 is not reached | refuse an order that is already processed and keep statuses within the declared choices | not executed; high | Views.StandaloneCheckout, Views.StandaloneReprocessesCheckedOutOrder | Views.StandaloneCheckoutCanonical, Views.StandaloneCanonicalNeverReprocesses |
| cselectiveAPI-main/mysite/api/serializers.py:39-41 | the one-Pending-order check runs only when the request states `Pending`; a request without a status gets the column default `Pending` at save, and the save does not run the entity check | `POST /orders/` with body `{"user": u}` and no `status`, where user `u` already has a Pending order; this reaches the generic create of the order viewset | treat an absent status as the default before checking, so the second Pending order is refused | not executed; medium (relies on the serializer save not running entity `clean` hooks) | Views.CreateOrder, Views.CreateOrderWithoutStatusBreaksRule | Views.CreateOrderChecked, Views.CreateOrderCheckedPreservesRule |
| cselectiveAPI-main/mysite/api/serializers.py:39-40 | on a partial or full update the check sees only the supplied fields, so it is skipped when the user is not supplied and also when the status is not supplied, and the write does not run the entity check | `PATCH /orders/o2/` with body `{"status": "Pending"}`, where `o2` is a Processed order of a user who has another order that is Pending; or `PATCH` or `PUT /orders/o1/` with body `{"user": v}`, where `o1` is a Pending order of `u` and `v` already has a Pending order | check the merged record (stored user and status overlaid with the supplied ones) | not executed; medium (relies on the serializer save not running entity `clean` hooks) | Views.PartialUpdateOrder, Views.PartialUpdateWithoutUserBreaksRule, Views.PartialUpdateReassignBreaksRule | Views.PartialUpdateOrderChecked, Views.PartialUpdateCheckedPreservesRule |

=== FILE: models.dfy ===
/**
  The persistent entities of the order API and the validation the entities
  themselves perform before a write: users, orders with a string status
  column, cart items with a quantity and a unit price, the one-Pending-order
  rule, the positive quantity/price rule, and cascade deletion.

  Every record lives in one immutable `Store` of three finite maps keyed by
  opaque identifiers. Prices are whole cents.
 */
module Models {

  datatype Option<+T> = None | Some(value: T)

  /** The outcome of a validator: the write may proceed, or it is refused. */
  datatype Outcome<+E> = Pass | Fail(error: E)

  datatype Result<+R, +E> = Success(value: R) | Failure(error: E)

  /** Identifiers are the text form of the UUID primary keys. */
  type UserId = string
  type OrderId = string
  type ItemId = string

  /** The status column is a free string: its declared choices are only a
      convention that some write paths check and others do not. */
  type Status = string

  const PENDING: Status := "Pending"
  const PROCESSED: Status := "Processed"
  const CANCELLED: Status := "Cancelled"

  /** The declared choices of the status column. */
  const STATUS_CHOICES: set<Status> := {PENDING, PROCESSED, CANCELLED}

  /** The value the status column takes when a write does not supply one. */
  const DEFAULT_STATUS: Status := PENDING

  datatype User = User(name: string, email: string, address: Option<string>, phoneNumber: Option<string>)

  datatype Order = Order(user: UserId, status: Status)

  /** A line item; `price` is the unit price in cents (two decimal places). */
  datatype CartItem = CartItem(order: OrderId, productName: string, quantity: int, price: int)

  datatype Store = Store(users: map<UserId, User>, orders: map<OrderId, Order>, items: map<ItemId, CartItem>)

  /** The validation errors the entities raise. */
  datatype ValidationError =
    | UserHasPendingOrder
    | PendingOrderExists
    | QuantityNotPositive
    | PriceNotPositive

  // ---------------------------------------------------------------------
  // Queries and invariants over the store
  // ---------------------------------------------------------------------

  /** The Pending orders owned by `u`. */
  function PendingOrdersOf(s: Store, u: UserId): set<OrderId>
  {
    set k | k in s.orders && s.orders[k].user == u && s.orders[k].status == PENDING
  }

  /** The Pending orders owned by `u`, other than the record `self` itself. */
  function OtherPendingOrdersOf(s: Store, u: UserId, self: OrderId): set<OrderId>
  {
    PendingOrdersOf(s, u) - {self}
  }

  /** The cart items that reference order `o`. */
  function ItemsOf(s: Store, o: OrderId): set<ItemId>
  {
    set i | i in s.items && s.items[i].order == o
  }

  /** No two distinct orders of one user are both Pending. */
  ghost predicate AtMostOnePending(s: Store)
  {
    forall a, b ::
      (a in s.orders && b in s.orders && a != b && s.orders[a].user == s.orders[b].user) ==>
      (s.orders[a].status != PENDING || s.orders[b].status != PENDING)
  }

  /** Every order names an existing user and every item an existing order. */
  ghost predicate ReferencesResolve(s: Store)
  {
    && (forall k :: k in s.orders ==> s.orders[k].user in s.users)
    && (forall i :: i in s.items ==> s.items[i].order in s.orders)
  }

  /** Every stored status is one of the declared choices. */
  ghost predicate StatusesDeclared(s: Store)
  {
    forall k :: k in s.orders ==> s.orders[k].status in STATUS_CHOICES
  }

  /** The pairwise statement of the rule and the counting one agree: no two
      Pending orders of one user exactly when every user has at most one. */
  lemma AtMostOnePendingIffCount(s: Store)
    ensures AtMostOnePending(s) <==> forall u :: |PendingOrdersOf(s, u)| <= 1
  {
    if AtMostOnePending(s) {
      forall u ensures |PendingOrdersOf(s, u)| <= 1 {
        var p := PendingOrdersOf(s, u);
        if p != {} {
          var x :| x in p;
          assert p <= {x};
          SubsetCardinality(p, {x});
        }
      }
    } else {
      var a, b :| a in s.orders && b in s.orders && a != b
        && s.orders[a].user == s.orders[b].user
        && s.orders[a].status == PENDING && s.orders[b].status == PENDING;
      var u := s.orders[a].user;
      var p := PendingOrdersOf(s, u);
      assert {a, b} <= p;
      SubsetCardinality({a, b}, p);
      assert |PendingOrdersOf(s, u)| > 1;
    }
  }

  lemma SubsetCardinality<T>(a: set<T>, b: set<T>)
    requires a <= b
    ensures |a| <= |b|
  {
    assert b == a + (b - a);
  }

  // ---------------------------------------------------------------------
  // Status domain and defaults
  // ---------------------------------------------------------------------

  /** A freshly created order for `u` when no status is supplied. */
  function NewOrder(u: UserId): (o: Order)
    ensures o.user == u && o.status in STATUS_CHOICES && o.status == PENDING
  {
    Order(u, DEFAULT_STATUS)
  }

  /** The declared status domain has exactly three members. */
  lemma StatusChoicesExactlyThree()
    ensures |STATUS_CHOICES| == 3
    ensures forall st :: st in STATUS_CHOICES <==> st == "Pending" || st == "Processed" || st == "Cancelled"
  {
  }

  // ---------------------------------------------------------------------
  // Entity validators (the `clean` hooks)
  // ---------------------------------------------------------------------

  /** User-level check: refuse while the user owns any Pending order. */
  function UserClean(s: Store, u: UserId): (r: Outcome<ValidationError>)
    ensures r.Fail? <==> exists k :: k in s.orders && s.orders[k].user == u && s.orders[k].status == PENDING
    ensures r.Fail? ==> r.error == UserHasPendingOrder
  {
    if PendingOrdersOf(s, u) != {} then
      Fail(UserHasPendingOrder)
    else
      assert forall k :: (k in s.orders && s.orders[k].user == u && s.orders[k].status == PENDING)
                         ==> k in PendingOrdersOf(s, u);
      Pass
  }

  /** Order-level check for writing `o` under key `self`: a Pending write is
      refused when some other order of the same user is Pending; the record
      itself is excluded from the conflict query by its key. */
  function OrderClean(s: Store, self: OrderId, o: Order): (r: Outcome<ValidationError>)
    ensures r.Fail? <==> (o.status == PENDING
      && exists k :: k in s.orders && k != self && s.orders[k].user == o.user && s.orders[k].status == PENDING)
    ensures o.status != PENDING ==> r == Pass
    ensures r.Fail? ==> r.error == PendingOrderExists
  {
    if o.status == PENDING && OtherPendingOrdersOf(s, o.user, self) != {} then
      Fail(PendingOrderExists)
    else
      assert forall k :: (k in s.orders && k != self && s.orders[k].user == o.user && s.orders[k].status == PENDING)
                         ==> k in OtherPendingOrdersOf(s, o.user, self);
      Pass
  }

  /** Item-level check: quantity is examined before price, so when both are
      non-positive the quantity error is the one reported. */
  function CartItemClean(quantity: int, price: int): (r: Outcome<ValidationError>)
    ensures r == Pass <==> quantity > 0 && price > 0
    ensures quantity <= 0 ==> r == Fail(QuantityNotPositive)
    ensures quantity > 0 && price <= 0 ==> r == Fail(PriceNotPositive)
  {
    if quantity <= 0 then Fail(QuantityNotPositive)
    else if price <= 0 then Fail(PriceNotPositive)
    else Pass
  }

  /** A user that passes its own check has no Pending order, so any order
      written for that user passes the order check, whatever its status. */
  lemma UserCleanPassAdmitsAnyOrder(s: Store, self: OrderId, o: Order)
    requires UserClean(s, o.user) == Pass
    ensures OrderClean(s, self, o) == Pass
    ensures PendingOrdersOf(s, o.user) == {}
  {
  }

  /** The user check refuses a user who holds exactly the one Pending order
      the order-level rule allows; it does not only refuse a second one. */
  lemma UserCleanRefusesSinglePending(s: Store, k: OrderId)
    requires k in s.orders && s.orders[k].status == PENDING
    requires PendingOrdersOf(s, s.orders[k].user) == {k}
    ensures UserClean(s, s.orders[k].user) == Fail(UserHasPendingOrder)
    ensures OrderClean(s, k, s.orders[k]) == Pass
  {
  }

  // ---------------------------------------------------------------------
  // Validated writes and cascade deletion
  // ---------------------------------------------------------------------

  /** Write order `o` under key `self` after it passes `OrderClean`. */
  function SaveOrder(s: Store, self: OrderId, o: Order): (r: Result<Store, ValidationError>)
    ensures r.Success? <==> OrderClean(s, self, o) == Pass
    ensures r.Failure? ==> r.error == PendingOrderExists && o.status == PENDING
    ensures r.Success? ==> r.value.users == s.users && r.value.items == s.items
    ensures r.Success? ==> self in r.value.orders && r.value.orders[self] == o
    ensures r.Success? ==> forall k :: k != self ==> (k in r.value.orders <==> k in s.orders)
    ensures r.Success? ==> forall k :: k in s.orders && k != self ==> r.value.orders[k] == s.orders[k]
  {
    match OrderClean(s, self, o)
    case Fail(e) => Failure(e)
    case Pass => Success(s.(orders := s.orders[self := o]))
  }

  /** A write that passes the order-level check keeps every user at no more
      than one Pending order. */
  lemma SaveOrderPreservesAtMostOnePending(s: Store, self: OrderId, o: Order)
    requires AtMostOnePending(s)
    ensures SaveOrder(s, self, o).Success? ==> AtMostOnePending(SaveOrder(s, self, o).value)
  {
  }

  /** Re-saving an order that is already its user's only Pending order is
      accepted: the record does not conflict with itself. */
  lemma ResaveOnlyPendingOrderPasses(s: Store, self: OrderId)
    requires self in s.orders && s.orders[self].status == PENDING
    requires PendingOrdersOf(s, s.orders[self].user) == {self}
    ensures OrderClean(s, self, s.orders[self]) == Pass
  {
  }

  /** The orders removed together with user `u`. */
  function OrdersOwnedBy(s: Store, u: UserId): set<OrderId>
  {
    set k | k in s.orders && s.orders[k].user == u
  }

  /** Delete user `u`; its orders go with it, and with them their cart items. */
  function DeleteUser(s: Store, u: UserId): (r: Store)
    ensures r.users.Keys == s.users.Keys - {u}
    ensures forall k :: k in r.users ==> r.users[k] == s.users[k]
    ensures forall k :: k in r.orders <==> k in s.orders && s.orders[k].user != u
    ensures forall k :: k in r.orders ==> r.orders[k] == s.orders[k]
    ensures forall i :: i in r.items <==>
      (i in s.items && !(s.items[i].order in s.orders && s.orders[s.items[i].order].user == u))
    ensures forall i :: i in r.items ==> r.items[i] == s.items[i]
  {
    var gone := OrdersOwnedBy(s, u);
    Store(
      s.users - {u},
      s.orders - gone,
      map i | i in s.items && s.items[i].order !in gone :: s.items[i])
  }

  /** Delete order `o`; its cart items go with it. */
  function DeleteOrder(s: Store, o: OrderId): (r: Store)
    ensures r.users == s.users
    ensures r.orders.Keys == s.orders.Keys - {o}
    ensures forall k :: k in r.orders ==> r.orders[k] == s.orders[k]
    ensures forall i :: i in r.items <==> i in s.items && s.items[i].order != o
    ensures forall i :: i in r.items ==> r.items[i] == s.items[i]
  {
    Store(s.users, s.orders - {o}, map i | i in s.items && s.items[i].order != o :: s.items[i])
  }

  /** Cascade deletion of a user leaves no dangling reference behind and
      keeps the one-Pending-order rule. */
  lemma DeleteUserPreservesInvariants(s: Store, u: UserId)
    requires ReferencesResolve(s) && AtMostOnePending(s)
    ensures ReferencesResolve(DeleteUser(s, u)) && AtMostOnePending(DeleteUser(s, u))
  {
  }

  /** Deleting a user removes exactly the orders it owns and the items of
      those orders, and leaves it no Pending order. */
  lemma DeleteUserRemovesExactlyItsTree(s: Store, u: UserId)
    ensures s.orders.Keys - DeleteUser(s, u).orders.Keys == OrdersOwnedBy(s, u)
    ensures s.items.Keys - DeleteUser(s, u).items.Keys
      == set i | i in s.items && s.items[i].order in OrdersOwnedBy(s, u)
    ensures PendingOrdersOf(DeleteUser(s, u), u) == {}
  {
  }

  lemma DeleteOrderPreservesInvariants(s: Store, o: OrderId)
    requires ReferencesResolve(s) && AtMostOnePending(s)
    ensures ReferencesResolve(DeleteOrder(s, o)) && AtMostOnePending(DeleteOrder(s, o))
  {
  }
}

=== FILE: serializers.dfy ===
/**
  Request-level validation of the order API: the per-field checks on cart
  item quantity and price, and the object-level one-Pending-order check an
  order request runs before it is written.

  The framework runs every field's `validate_*` method and gathers all
  failures before it answers, whereas the entity's own check stops at the
  first; both are modelled, and their accept/reject decisions are shown to
  coincide. The fields' own range checks, derived from the column types,
  are not modelled.
 */
module Serializers {
  import opened Models

  /** The field-level quantity check: a non-positive value is refused, any
      other value passes through unchanged. */
  function ValidateQuantity(value: int): (r: Result<int, ValidationError>)
    ensures r.Success? <==> value > 0
    ensures r.Success? ==> r.value == value
    ensures r.Failure? ==> r.error == QuantityNotPositive
  {
    if value <= 0 then Failure(QuantityNotPositive) else Success(value)
  }

  /** The field-level price check (cents): a non-positive value is refused,
      any other value passes through unchanged. */
  function ValidatePrice(value: int): (r: Result<int, ValidationError>)
    ensures r.Success? <==> value > 0
    ensures r.Success? ==> r.value == value
    ensures r.Failure? ==> r.error == PriceNotPositive
  {
    if value <= 0 then Failure(PriceNotPositive) else Success(value)
  }

  /** The errors the `validate_*` methods of a cart-item request collect,
      in field order (quantity before price). The fields' own range checks,
      which run before them, are not part of this. */
  function CartItemFieldErrors(quantity: int, price: int): (errs: seq<ValidationError>)
    ensures |errs| <= 2
    ensures QuantityNotPositive in errs <==> quantity <= 0
    ensures PriceNotPositive in errs <==> price <= 0
    ensures forall e :: e in errs ==> e == QuantityNotPositive || e == PriceNotPositive
    ensures |errs| == 2 ==> errs == [QuantityNotPositive, PriceNotPositive]
  {
    (match ValidateQuantity(quantity) case Failure(e) => [e] case Success(_) => [])
    + (match ValidatePrice(price) case Failure(e) => [e] case Success(_) => [])
  }

  /** The `validate_*` methods and the entity check make the same
      accept/reject decision on every (quantity, price) pair, and when the
      `validate_*` methods refuse, their first error is the one the entity
      check reports. */
  lemma CartItemLayersAgree(quantity: int, price: int)
    ensures CartItemFieldErrors(quantity, price) == [] <==> CartItemClean(quantity, price) == Pass
    ensures CartItemFieldErrors(quantity, price) != [] ==>
      CartItemClean(quantity, price) == Fail(CartItemFieldErrors(quantity, price)[0])
  {
  }

  /** The input of an order request: each field may be absent. */
  datatype OrderData = OrderData(user: Option<UserId>, status: Option<Status>)

  /** Object-level validation of an order request. `instance` is the key of
      the order being updated, absent on creation. The conflict query runs
      only when the request states the status `Pending` explicitly and names
      a user; the data is returned unchanged when it passes. */
  function ValidateOrderData(s: Store, instance: Option<OrderId>, data: OrderData): (r: Result<OrderData, ValidationError>)
    ensures r.Failure? <==> (data.status == Some(PENDING) && data.user.Some?
      && exists k :: k in s.orders && Some(k) != instance
           && s.orders[k].user == data.user.value && s.orders[k].status == PENDING)
    ensures r.Failure? ==> r.error == PendingOrderExists
    ensures r.Success? ==> r.value == data
  {
    if data.status == Some(PENDING) && data.user.Some? then
      var conflicts := match instance
        case Some(self) => OtherPendingOrdersOf(s, data.user.value, self)
        case None => PendingOrdersOf(s, data.user.value);
      if conflicts != {} then
        Failure(PendingOrderExists)
      else
        assert forall k :: (k in s.orders && Some(k) != instance
                            && s.orders[k].user == data.user.value && s.orders[k].status == PENDING)
                           ==> k in conflicts;
        Success(data)
    else
      Success(data)
  }

  /** On creation any Pending order of the named user is a conflict. */
  lemma CreateConflictsWithAnyPending(s: Store, u: UserId)
    ensures ValidateOrderData(s, None, OrderData(Some(u), Some(PENDING))).Failure?
      <==> PendingOrdersOf(s, u) != {}
  {
  }

  /** When the status is absent or not `Pending`, or no user is named, the
      request passes whatever the store holds. */
  lemma ValidateOrderDataSkipsCheck(s: Store, instance: Option<OrderId>, data: OrderData)
    requires data.status != Some(PENDING) || data.user.None?
    ensures ValidateOrderData(s, instance, data) == Success(data)
  {
  }

  /** The request-level check on an update of `self` and the entity-level
      check on the same write agree. */
  lemma UpdateCheckAgreesWithOrderClean(s: Store, self: OrderId, o: Order)
    ensures ValidateOrderData(s, Some(self), OrderData(Some(o.user), Some(o.status))).Failure?
      <==> OrderClean(s, self, o).Fail?
  {
  }

  /** On creation under a key `newKey` not yet in the store, the request-level check
      and the entity-level check agree. */
  lemma CreateCheckAgreesWithOrderClean(s: Store, newKey: OrderId, o: Order)
    requires newKey !in s.orders
    ensures ValidateOrderData(s, None, OrderData(Some(o.user), Some(o.status))).Failure?
      <==> OrderClean(s, newKey, o).Fail?
  {
  }
}

=== FILE: views.dfy ===
/**
  The request handlers of the order API that carry logic: the
  resource-scoped checkout action, the standalone checkout endpoint, the
  cart-item filter, the caller-scoped order listing and creation, and the
  generic create and partial update of the order resource.

  Each handler is a pure function from the store (and the request) to a
  reply outcome and the new store. The authenticated caller is an opaque
  user key passed in; fresh primary keys are passed in as well.
 */
module Views {
  import opened Models
  import opened Serializers

  // ---------------------------------------------------------------------
  // Resource-scoped checkout: POST /orders/{id}/checkout
  // ---------------------------------------------------------------------

  datatype CheckoutOutcome = OrderNotFound | NotPending | NoCartItems | CheckedOut

  datatype CheckoutReply = CheckoutReply(outcome: CheckoutOutcome, store: Store)

  function CheckoutHttpStatus(outcome: CheckoutOutcome): int
  {
    match outcome
    case OrderNotFound => 404
    case NotPending => 400
    case NoCartItems => 400
    case CheckedOut => 200
  }

  /** The order `id` with its status replaced, everything else as in `s`. */
  function SetStatus(s: Store, id: OrderId, status: Status): Store
    requires id in s.orders
  {
    s.(orders := s.orders[id := s.orders[id].(status := status)])
  }

  /** Check out order `id`: it must exist, be Pending and have at least one
      cart item; then, and only then, its status becomes Processed. */
  function Checkout(s: Store, id: OrderId): (r: CheckoutReply)
    ensures r.outcome == OrderNotFound <==> id !in s.orders
    ensures r.outcome == NotPending <==> id in s.orders && s.orders[id].status != PENDING
    ensures r.outcome == NoCartItems <==>
      (id in s.orders && s.orders[id].status == PENDING && forall i :: i in s.items ==> s.items[i].order != id)
    ensures r.outcome != CheckedOut ==> r.store == s
    ensures r.outcome == CheckedOut ==>
      && r.store.users == s.users && r.store.items == s.items
      && r.store.orders.Keys == s.orders.Keys
      && r.store.orders[id] == Order(s.orders[id].user, PROCESSED)
      && (forall k :: k in s.orders && k != id ==> r.store.orders[k] == s.orders[k])
  {
    if id !in s.orders then
      CheckoutReply(OrderNotFound, s)
    else if s.orders[id].status != PENDING then
      CheckoutReply(NotPending, s)
    else if ItemsOf(s, id) == {} then
      assert forall i :: i in s.items ==> s.items[i].order != id by {
        forall i | i in s.items ensures s.items[i].order != id {
          assert i !in ItemsOf(s, id);
        }
      }
      CheckoutReply(NoCartItems, s)
    else
      CheckoutReply(CheckedOut, SetStatus(s, id, PROCESSED))
  }

  /** The reply codes: 404 exactly for a missing order, 400 for an order that
      is not Pending or has no items, 200 exactly on success. */
  lemma CheckoutReplyCodes(s: Store, id: OrderId)
    ensures CheckoutHttpStatus(Checkout(s, id).outcome) == 404 <==> id !in s.orders
    ensures CheckoutHttpStatus(Checkout(s, id).outcome) == 200 <==>
      (id in s.orders && s.orders[id].status == PENDING && ItemsOf(s, id) != {})
    ensures CheckoutHttpStatus(Checkout(s, id).outcome) == 400 <==>
      (id in s.orders && (s.orders[id].status != PENDING || ItemsOf(s, id) == {}))
  {
  }

  /** A checkout that succeeded cannot succeed again: the second attempt on
      the same order is refused as not Pending, and changes nothing. */
  lemma CheckoutAtMostOnce(s: Store, id: OrderId)
    requires Checkout(s, id).outcome == CheckedOut
    ensures Checkout(Checkout(s, id).store, id).outcome == NotPending
    ensures Checkout(Checkout(s, id).store, id).store == Checkout(s, id).store
  {
  }

  /** Checkout never adds a Pending order for any user. */
  lemma CheckoutNeverAddsPending(s: Store, id: OrderId, u: UserId)
    ensures PendingOrdersOf(Checkout(s, id).store, u) <= PendingOrdersOf(s, u)
    ensures |PendingOrdersOf(Checkout(s, id).store, u)| <= |PendingOrdersOf(s, u)|
  {
    var t := Checkout(s, id).store;
    assert PendingOrdersOf(t, u) <= PendingOrdersOf(s, u) by {
      forall k | k in PendingOrdersOf(t, u) ensures k in PendingOrdersOf(s, u) {
        assert k in t.orders && t.orders[k].status == PENDING;
      }
    }
    SubsetCardinality(PendingOrdersOf(t, u), PendingOrdersOf(s, u));
  }

  /** Checkout keeps the one-Pending-order rule, resolved references and
      the declared status domain. */
  lemma CheckoutPreservesInvariants(s: Store, id: OrderId)
    requires AtMostOnePending(s) && ReferencesResolve(s) && StatusesDeclared(s)
    ensures AtMostOnePending(Checkout(s, id).store)
    ensures ReferencesResolve(Checkout(s, id).store)
    ensures StatusesDeclared(Checkout(s, id).store)
  {
  }

  // ---------------------------------------------------------------------
  // Standalone checkout: POST /checkout/ with an `orderID` body field
  // ---------------------------------------------------------------------

  /** The status literal the standalone endpoint compares against and
      writes; it differs in case from the declared `Processed`. */
  const PROCESSED_UPPER: Status := "PROCESSED"

  datatype StandaloneOutcome =
    | MissingOrderId
    | StandaloneNotFound
    | AlreadyProcessed
    | StandaloneProcessed
    | LookupFieldError

  datatype StandaloneReply = StandaloneReply(outcome: StandaloneOutcome, store: Store)

  function StandaloneHttpStatus(outcome: StandaloneOutcome): int
  {
    match outcome
    case MissingOrderId => 400
    case StandaloneNotFound => 404
    case AlreadyProcessed => 400
    case StandaloneProcessed => 200
    case LookupFieldError => 500
  }

  /** The body field counts as given when it is present and not empty. */
  predicate Given(v: Option<string>)
  {
    v.Some? && v.value != ""
  }

  /** The endpoint as written: a given id is looked up through a field the
      order entity does not have, which raises a field-resolution error
      rather than a not-found one, so every request with an id ends in a
      server error and nothing is written. */
  function CheckoutViewAsWritten(s: Store, orderId: Option<string>): (r: StandaloneReply)
    ensures r.store == s
    ensures r.outcome == MissingOrderId <==> !Given(orderId)
    ensures r.outcome == LookupFieldError <==> Given(orderId)
  {
    if !Given(orderId) then StandaloneReply(MissingOrderId, s)
    else StandaloneReply(LookupFieldError, s)
  }

  /** The endpoint with the order looked up by primary key: a missing id is
      400, an unknown one 404, an order whose status is exactly `PROCESSED`
      is 400; any other order, whatever its status and however many items
      it has, is set to `PROCESSED`. */
  function StandaloneCheckout(s: Store, orderId: Option<string>): (r: StandaloneReply)
    ensures r.outcome == MissingOrderId <==> !Given(orderId)
    ensures r.outcome == StandaloneNotFound <==> Given(orderId) && orderId.value !in s.orders
    ensures r.outcome == AlreadyProcessed <==>
      (Given(orderId) && orderId.value in s.orders && s.orders[orderId.value].status == PROCESSED_UPPER)
    ensures r.outcome != LookupFieldError
    ensures r.outcome != StandaloneProcessed ==> r.store == s
    ensures r.outcome == StandaloneProcessed ==>
      && orderId.Some? && orderId.value in s.orders
      && r.store == SetStatus(s, orderId.value, PROCESSED_UPPER)
  {
    if !Given(orderId) then StandaloneReply(MissingOrderId, s)
    else if orderId.value !in s.orders then StandaloneReply(StandaloneNotFound, s)
    else if s.orders[orderId.value].status == PROCESSED_UPPER then StandaloneReply(AlreadyProcessed, s)
    else StandaloneReply(StandaloneProcessed, SetStatus(s, orderId.value, PROCESSED_UPPER))
  }

  /** The lookup as written never finds an order, even one that exists,
      where the primary-key lookup does. */
  lemma CheckoutViewAsWrittenMissesExistingOrder(s: Store, id: OrderId)
    requires id in s.orders && id != ""
    ensures StandaloneHttpStatus(CheckoutViewAsWritten(s, Some(id)).outcome) == 500
    ensures StandaloneCheckout(s, Some(id)).outcome in {AlreadyProcessed, StandaloneProcessed}
  {
  }

  /** After the resource-scoped checkout has processed an order, the
      standalone endpoint processes it a second time, because the stored
      `Processed` is not the `PROCESSED` it tests for; the status it writes
      lies outside the declared choices. */
  lemma StandaloneReprocessesCheckedOutOrder(s: Store, id: OrderId)
    requires id != "" && Checkout(s, id).outcome == CheckedOut
    ensures StandaloneCheckout(Checkout(s, id).store, Some(id)).outcome == StandaloneProcessed
    ensures !StatusesDeclared(StandaloneCheckout(Checkout(s, id).store, Some(id)).store)
  {
    var t := StandaloneCheckout(Checkout(s, id).store, Some(id)).store;
    assert t.orders[id].status == PROCESSED_UPPER;
    assert PROCESSED_UPPER !in STATUS_CHOICES by {
      assert PROCESSED_UPPER[1] == 'R';
    }
  }

  /** The two checkouts disagree: the standalone endpoint processes every
      existing order not already marked `PROCESSED`, including every order
      the resource-scoped action refuses for not being Pending or for having
      no cart items. */
  lemma CheckoutsDiverge(s: Store, id: OrderId)
    requires id != "" && id in s.orders && s.orders[id].status != PROCESSED_UPPER
    ensures StandaloneCheckout(s, Some(id)).outcome == StandaloneProcessed
    ensures Checkout(s, id).outcome != CheckedOut <==> (s.orders[id].status != PENDING || ItemsOf(s, id) == {})
    ensures s.orders[id].status == PENDING && ItemsOf(s, id) == {} ==> Checkout(s, id).outcome == NoCartItems
  {
  }

  /** A second standalone checkout of the same order is refused. */
  lemma StandaloneAtMostOnceByItself(s: Store, orderId: Option<string>)
    requires StandaloneCheckout(s, orderId).outcome == StandaloneProcessed
    ensures StandaloneCheckout(StandaloneCheckout(s, orderId).store, orderId).outcome == AlreadyProcessed
  {
  }

  /** The standalone endpoint never leaves an order Pending that was not,
      so the one-Pending-order rule and resolved references are kept. */
  lemma StandalonePreservesRule(s: Store, orderId: Option<string>)
    requires AtMostOnePending(s) && ReferencesResolve(s)
    ensures AtMostOnePending(StandaloneCheckout(s, orderId).store)
    ensures ReferencesResolve(StandaloneCheckout(s, orderId).store)
  {
  }

  /** The standalone endpoint with the declared `Processed` literal in place
      of `PROCESSED`. */
  function StandaloneCheckoutCanonical(s: Store, orderId: Option<string>): (r: StandaloneReply)
    ensures r.outcome == MissingOrderId <==> !Given(orderId)
    ensures r.outcome == StandaloneNotFound <==> Given(orderId) && orderId.value !in s.orders
    ensures r.outcome == AlreadyProcessed <==>
      (Given(orderId) && orderId.value in s.orders && s.orders[orderId.value].status == PROCESSED)
    ensures r.outcome != LookupFieldError
    ensures r.outcome != StandaloneProcessed ==> r.store == s
    ensures r.outcome == StandaloneProcessed ==>
      orderId.Some? && orderId.value in s.orders && r.store == SetStatus(s, orderId.value, PROCESSED)
  {
    if !Given(orderId) then StandaloneReply(MissingOrderId, s)
    else if orderId.value !in s.orders then StandaloneReply(StandaloneNotFound, s)
    else if s.orders[orderId.value].status == PROCESSED then StandaloneReply(AlreadyProcessed, s)
    else StandaloneReply(StandaloneProcessed, SetStatus(s, orderId.value, PROCESSED))
  }

  /** With the declared literal, an order processed by either endpoint is
      refused by the standalone one, and the status domain is kept. */
  lemma StandaloneCanonicalNeverReprocesses(s: Store, id: OrderId)
    requires id != ""
    ensures Checkout(s, id).outcome == CheckedOut ==>
      StandaloneCheckoutCanonical(Checkout(s, id).store, Some(id)).outcome == AlreadyProcessed
    ensures StandaloneCheckoutCanonical(s, Some(id)).outcome == StandaloneProcessed ==>
      StandaloneCheckoutCanonical(StandaloneCheckoutCanonical(s, Some(id)).store, Some(id)).outcome == AlreadyProcessed
    ensures StatusesDeclared(s) ==> StatusesDeclared(StandaloneCheckoutCanonical(s, Some(id)).store)
  {
  }

  // ---------------------------------------------------------------------
  // Cart-item filter: GET /cart-items/?order_id=...
  // ---------------------------------------------------------------------

  /** With a given `order_id`, the items of that order provided it is
      Pending; without one, every item. */
  function CartItemsQuery(s: Store, orderId: Option<string>): (r: set<ItemId>)
    ensures Given(orderId) ==> forall i :: i in r <==>
      (i in s.items && s.items[i].order == orderId.value
       && orderId.value in s.orders && s.orders[orderId.value].status == PENDING)
    ensures !Given(orderId) ==> r == s.items.Keys
  {
    if Given(orderId) then
      set i | i in s.items && s.items[i].order == orderId.value
        && s.items[i].order in s.orders && s.orders[s.items[i].order].status == PENDING
    else
      s.items.Keys
  }

  /** The filter and checkout see the same item set: checkout succeeds on a
      Pending order exactly when the filter shows some item of it, and after
      a successful checkout the filter shows none. */
  lemma CartItemsQueryAgreesWithCheckout(s: Store, id: OrderId)
    requires id != ""
    ensures Checkout(s, id).outcome == CheckedOut <==> CartItemsQuery(s, Some(id)) != {}
    ensures Checkout(s, id).outcome == CheckedOut ==> CartItemsQuery(Checkout(s, id).store, Some(id)) == {}
  {
  }

  // ---------------------------------------------------------------------
  // Caller-scoped order listing and creation: GET/POST /orders/
  // ---------------------------------------------------------------------

  /** The orders listed for the authenticated `caller`. */
  function ListOrders(s: Store, caller: UserId): (r: set<OrderId>)
    ensures forall k :: k in r <==> k in s.orders && s.orders[k].user == caller
  {
    OrdersOwnedBy(s, caller)
  }

  /** The listing is exactly what deleting the caller would take with it,
      and it includes the caller's Pending order. */
  lemma ListOrdersIsOwnedTree(s: Store, caller: UserId)
    ensures ListOrders(s, caller) == s.orders.Keys - DeleteUser(s, caller).orders.Keys
    ensures PendingOrdersOf(s, caller) <= ListOrders(s, caller)
  {
  }

  datatype OrderRequestError = UnknownUser | InvalidStatusChoice | Invalid(error: ValidationError)

  datatype CreateOutcome = Created(id: OrderId) | Rejected(errors: seq<OrderRequestError>)

  datatype CreateReply = CreateReply(outcome: CreateOutcome, store: Store)

  function CreateHttpStatus(outcome: CreateOutcome): int
  {
    if outcome.Created? then 201 else 400
  }

  /** Field-level errors of an order request: the user must exist and a
      supplied status must be one of the declared choices. */
  function OrderFieldErrors(s: Store, data: OrderData): (errs: seq<OrderRequestError>)
    ensures errs == [] <==>
      (data.user.Some? && data.user.value in s.users
       && (data.status.Some? ==> data.status.value in STATUS_CHOICES))
  {
    (if data.user.Some? && data.user.value in s.users then [] else [UnknownUser])
    + (if data.status.Some? && data.status.value !in STATUS_CHOICES then [InvalidStatusChoice] else [])
  }

  /** The order a creation stores: the supplied status, or the column
      default when the request has none. */
  function CreatedOrder(u: UserId, status: Option<Status>): Order
  {
    match status
    case Some(st) => Order(u, st)
    case None => NewOrder(u)
  }

  /** The generic create handler of the order resource, under the unused key
      `newKey`: field checks first, then the object-level check, which runs
      only if the request states `Pending` explicitly, then an insert that
      does not run the entity check. */
  function CreateOrder(s: Store, data: OrderData, newKey: OrderId): (r: CreateReply)
    requires newKey !in s.orders
    ensures r.outcome.Rejected? ==> r.store == s
    ensures r.outcome.Created? <==>
      && data.user.Some? && data.user.value in s.users
      && (data.status.Some? ==> data.status.value in STATUS_CHOICES)
      && !(data.status == Some(PENDING) && PendingOrdersOf(s, data.user.value) != {})
    ensures r.outcome.Created? ==>
      && r.outcome.id == newKey
      && r.store.users == s.users && r.store.items == s.items
      && r.store.orders == s.orders[newKey := CreatedOrder(data.user.value, data.status)]
  {
    var fieldErrs := OrderFieldErrors(s, data);
    if fieldErrs != [] then
      CreateReply(Rejected(fieldErrs), s)
    else
      CreateConflictsWithAnyPending(s, data.user.value);
      match ValidateOrderData(s, None, data)
      case Failure(e) => CreateReply(Rejected([Invalid(e)]), s)
      case Success(v) =>
        CreateReply(Created(newKey), s.(orders := s.orders[newKey := CreatedOrder(data.user.value, v.status)]))
  }

  /** Create an order for the authenticated `caller`: any user named in the
      request is replaced by the caller, then the generic creation runs. */
  function OrderListPost(s: Store, caller: UserId, data: OrderData, newKey: OrderId): (r: CreateReply)
    requires newKey !in s.orders
    ensures r.outcome.Rejected? ==> r.store == s
    ensures r.outcome.Created? <==>
      && caller in s.users
      && (data.status.Some? ==> data.status.value in STATUS_CHOICES)
      && !(data.status == Some(PENDING) && PendingOrdersOf(s, caller) != {})
    ensures r.outcome.Created? ==>
      && r.outcome.id == newKey
      && r.store.users == s.users && r.store.items == s.items
      && r.store.orders == s.orders[newKey := CreatedOrder(caller, data.status)]
  {
    CreateOrder(s, data.(user := Some(caller)), newKey)
  }

  /** The user named in the request body has no effect on creation. */
  lemma OrderListPostIgnoresSuppliedUser(s: Store, caller: UserId, data: OrderData, other: Option<UserId>, newKey: OrderId)
    requires newKey !in s.orders
    ensures OrderListPost(s, caller, data, newKey) == OrderListPost(s, caller, data.(user := other), newKey)
  {
  }

  /** Creation keeps references resolved and statuses declared, and keeps
      the one-Pending-order rule whenever the request states its status. */
  lemma CreateOrderExplicitStatusPreservesRule(s: Store, data: OrderData, newKey: OrderId)
    requires newKey !in s.orders
    requires AtMostOnePending(s) && ReferencesResolve(s) && StatusesDeclared(s)
    ensures ReferencesResolve(CreateOrder(s, data, newKey).store)
    ensures StatusesDeclared(CreateOrder(s, data, newKey).store)
    ensures data.status.Some? ==> AtMostOnePending(CreateOrder(s, data, newKey).store)
  {
  }

  /** A request without a status slips past the one-Pending-order check:
      the user already has a Pending order, the request is accepted with
      201, and the new order takes the default `Pending`. */
  lemma CreateOrderWithoutStatusBreaksRule()
    ensures exists s: Store, u: UserId, newKey: OrderId ::
      && newKey !in s.orders
      && AtMostOnePending(s)
      && CreateHttpStatus(CreateOrder(s, OrderData(Some(u), None), newKey).outcome) == 201
      && !AtMostOnePending(CreateOrder(s, OrderData(Some(u), None), newKey).store)
  {
    var s := Store(map["u" := User("n", "e", None, None)], map["o1" := Order("u", PENDING)], map[]);
    var r := CreateOrder(s, OrderData(Some("u"), None), "o2");
    assert r.outcome.Created?;
    assert r.store.orders["o1"].status == PENDING && r.store.orders["o2"].status == PENDING;
    assert !AtMostOnePending(r.store);
  }

  /** Generic creation with the column default made explicit before
      validation, so that a request without a status is checked as a
      `Pending` one. */
  function CreateOrderChecked(s: Store, data: OrderData, newKey: OrderId): (r: CreateReply)
    requires newKey !in s.orders
    ensures r.outcome.Rejected? ==> r.store == s
    ensures r.outcome.Created? <==>
      && data.user.Some? && data.user.value in s.users
      && (data.status.Some? ==> data.status.value in STATUS_CHOICES)
      && !((data.status.None? || data.status == Some(PENDING)) && PendingOrdersOf(s, data.user.value) != {})
    ensures r.outcome.Created? ==>
      && r.outcome.id == newKey
      && r.store.users == s.users && r.store.items == s.items
      && r.store.orders == s.orders[newKey := CreatedOrder(data.user.value, data.status)]
  {
    var status := if data.status.Some? then data.status.value else DEFAULT_STATUS;
    CreateOrder(s, data.(status := Some(status)), newKey)
  }

  /** The caller-scoped creation with the column default made explicit. */
  function OrderListPostChecked(s: Store, caller: UserId, data: OrderData, newKey: OrderId): (r: CreateReply)
    requires newKey !in s.orders
    ensures r.outcome.Rejected? ==> r.store == s
    ensures r.outcome.Created? <==>
      && caller in s.users
      && (data.status.Some? ==> data.status.value in STATUS_CHOICES)
      && !((data.status.None? || data.status == Some(PENDING)) && PendingOrdersOf(s, caller) != {})
    ensures r.outcome.Created? ==>
      && r.outcome.id == newKey
      && r.store.users == s.users && r.store.items == s.items
      && r.store.orders == s.orders[newKey := CreatedOrder(caller, data.status)]
  {
    CreateOrderChecked(s, data.(user := Some(caller)), newKey)
  }

  /** With the default made explicit, every creation keeps the
      one-Pending-order rule, and it agrees with the handler as written
      whenever the request states a status. */
  lemma CreateOrderCheckedPreservesRule(s: Store, data: OrderData, newKey: OrderId)
    requires newKey !in s.orders
    requires AtMostOnePending(s) && ReferencesResolve(s) && StatusesDeclared(s)
    ensures AtMostOnePending(CreateOrderChecked(s, data, newKey).store)
    ensures ReferencesResolve(CreateOrderChecked(s, data, newKey).store)
    ensures StatusesDeclared(CreateOrderChecked(s, data, newKey).store)
    ensures data.status.Some? ==> CreateOrderChecked(s, data, newKey) == CreateOrder(s, data, newKey)
  {
  }

  // ---------------------------------------------------------------------
  // Generic partial update of an order: PATCH /orders/{id}/
  // ---------------------------------------------------------------------

  datatype UpdateOutcome = Updated | UpdateNotFound | UpdateRejected(errors: seq<OrderRequestError>)

  datatype UpdateReply = UpdateReply(outcome: UpdateOutcome, store: Store)

  function UpdateHttpStatus(outcome: UpdateOutcome): int
  {
    match outcome
    case Updated => 200
    case UpdateNotFound => 404
    case UpdateRejected(_) => 400
  }

  /** Field-level errors of a partial update: only supplied fields are
      checked. */
  function PartialFieldErrors(s: Store, data: OrderData): (errs: seq<OrderRequestError>)
    ensures errs == [] <==>
      ((data.user.Some? ==> data.user.value in s.users)
       && (data.status.Some? ==> data.status.value in STATUS_CHOICES))
  {
    (if data.user.Some? && data.user.value !in s.users then [UnknownUser] else [])
    + (if data.status.Some? && data.status.value !in STATUS_CHOICES then [InvalidStatusChoice] else [])
  }

  /** The stored order with the supplied fields of `data` laid over it. */
  function Merge(o: Order, data: OrderData): Order
  {
    Order(if data.user.Some? then data.user.value else o.user,
          if data.status.Some? then data.status.value else o.status)
  }

  /** The generic partial update of order `id`: the supplied fields are
      checked, the object-level check sees only the supplied fields with
      the order as instance, and the merged record is written without the
      entity check. */
  function PartialUpdateOrder(s: Store, id: OrderId, data: OrderData): (r: UpdateReply)
    ensures r.outcome == UpdateNotFound <==> id !in s.orders
    ensures r.outcome != Updated ==> r.store == s
    ensures r.outcome == Updated <==>
      && id in s.orders
      && (data.user.Some? ==> data.user.value in s.users)
      && (data.status.Some? ==> data.status.value in STATUS_CHOICES)
      && !(data.status == Some(PENDING) && data.user.Some? && OtherPendingOrdersOf(s, data.user.value, id) != {})
    ensures r.outcome == Updated ==> r.store == s.(orders := s.orders[id := Merge(s.orders[id], data)])
  {
    if id !in s.orders then
      UpdateReply(UpdateNotFound, s)
    else
      var fieldErrs := PartialFieldErrors(s, data);
      if fieldErrs != [] then
        UpdateReply(UpdateRejected(fieldErrs), s)
      else
        match ValidateOrderData(s, Some(id), data)
        case Failure(e) => UpdateReply(UpdateRejected([Invalid(e)]), s)
        case Success(_) =>
          UpdateReply(Updated, s.(orders := s.orders[id := Merge(s.orders[id], data)]))
  }

  /** A partial update that sets `Pending` without naming the user passes
      the object-level check, so a non-Pending order of a user who already
      has a Pending one becomes a second Pending order. */
  lemma PartialUpdateWithoutUserBreaksRule()
    ensures exists s: Store, id: OrderId ::
      && AtMostOnePending(s)
      && UpdateHttpStatus(PartialUpdateOrder(s, id, OrderData(None, Some(PENDING))).outcome) == 200
      && !AtMostOnePending(PartialUpdateOrder(s, id, OrderData(None, Some(PENDING))).store)
  {
    var s := Store(map["u" := User("n", "e", None, None)],
                   map["o1" := Order("u", PENDING), "o2" := Order("u", PROCESSED)], map[]);
    var r := PartialUpdateOrder(s, "o2", OrderData(None, Some(PENDING)));
    assert r.outcome == Updated;
    assert r.store.orders["o1"].status == PENDING && r.store.orders["o2"].status == PENDING;
    assert !AtMostOnePending(r.store);
  }

  /** A partial update that names another user without stating a status
      also passes the object-level check, so a Pending order can be moved to
      a user who already has a Pending one. */
  lemma PartialUpdateReassignBreaksRule()
    ensures exists s: Store, id: OrderId, v: UserId ::
      && AtMostOnePending(s)
      && UpdateHttpStatus(PartialUpdateOrder(s, id, OrderData(Some(v), None)).outcome) == 200
      && !AtMostOnePending(PartialUpdateOrder(s, id, OrderData(Some(v), None)).store)
  {
    var s := Store(map["u" := User("n", "e", None, None), "v" := User("m", "f", None, None)],
                   map["o1" := Order("u", PENDING), "o2" := Order("v", PENDING)], map[]);
    assert AtMostOnePending(s);
    var r := PartialUpdateOrder(s, "o1", OrderData(Some("v"), None));
    assert r.outcome == Updated;
    assert r.store.orders["o1"] == Order("v", PENDING) && r.store.orders["o2"] == Order("v", PENDING);
    assert !AtMostOnePending(r.store);
  }

  /** The partial update with the object-level check run on the merged
      record, so that the stored user and status take part in it. */
  function PartialUpdateOrderChecked(s: Store, id: OrderId, data: OrderData): (r: UpdateReply)
    ensures r.outcome == UpdateNotFound <==> id !in s.orders
    ensures r.outcome != Updated ==> r.store == s
    ensures r.outcome == Updated <==>
      && id in s.orders
      && (data.user.Some? ==> data.user.value in s.users)
      && (data.status.Some? ==> data.status.value in STATUS_CHOICES)
      && OrderClean(s, id, Merge(s.orders[id], data)) == Pass
    ensures r.outcome == Updated ==> r.store == s.(orders := s.orders[id := Merge(s.orders[id], data)])
  {
    if id !in s.orders then
      UpdateReply(UpdateNotFound, s)
    else
      var merged := Merge(s.orders[id], data);
      var fieldErrs := PartialFieldErrors(s, data);
      if fieldErrs != [] then
        UpdateReply(UpdateRejected(fieldErrs), s)
      else
        UpdateCheckAgreesWithOrderClean(s, id, merged);
        match ValidateOrderData(s, Some(id), OrderData(Some(merged.user), Some(merged.status)))
        case Failure(e) => UpdateReply(UpdateRejected([Invalid(e)]), s)
        case Success(_) => UpdateReply(Updated, s.(orders := s.orders[id := merged]))
  }

  /** With the merged record checked, every partial update keeps the
      one-Pending-order rule, and it agrees with the handler as written
      whenever the request supplies both fields. */
  lemma PartialUpdateCheckedPreservesRule(s: Store, id: OrderId, data: OrderData)
    requires AtMostOnePending(s)
    ensures AtMostOnePending(PartialUpdateOrderChecked(s, id, data).store)
    ensures data.user.Some? && data.status.Some? ==>
      PartialUpdateOrderChecked(s, id, data) == PartialUpdateOrder(s, id, data)
  {
  }

  /** The documented lifecycle of one user: checkout of a Pending order with
      one item succeeds, a repeat is refused, a new Pending order can then
      be created through the generic create, and a further Pending order is
      refused. */
  lemma LifecycleScenario()
    ensures
      var s0 := Store(map["A" := User("A", "a@example.com", None, None)],
                      map["O1" := Order("A", PENDING)],
                      map["I1" := CartItem("O1", "widget", 2, 500)]);
      var c1 := Checkout(s0, "O1");
      var c2 := Checkout(c1.store, "O1");
      var p2 := CreateOrder(c2.store, OrderData(Some("A"), Some(PENDING)), "O2");
      var p3 := CreateOrder(p2.store, OrderData(Some("A"), Some(PENDING)), "O3");
      && CheckoutHttpStatus(c1.outcome) == 200 && c1.store.orders["O1"].status == PROCESSED
      && CheckoutHttpStatus(c2.outcome) == 400 && c2.store == c1.store
      && CreateHttpStatus(p2.outcome) == 201
      && CreateHttpStatus(p3.outcome) == 400 && p3.store == p2.store
  {
    var s0 := Store(map["A" := User("A", "a@example.com", None, None)],
                    map["O1" := Order("A", PENDING)],
                    map["I1" := CartItem("O1", "widget", 2, 500)]);
    assert "I1" in ItemsOf(s0, "O1");
    var c1 := Checkout(s0, "O1");
    assert PendingOrdersOf(c1.store, "A") == {} by {
      assert c1.store.orders.Keys == {"O1"};
    }
    var p2 := CreateOrder(c1.store, OrderData(Some("A"), Some(PENDING)), "O2");
    assert "O2" in PendingOrdersOf(p2.store, "A");
  }
}
